=== FILE: README.md ===
# minimap drag core in Dafny

This project models the reusable core of the minimap drag page `js/main.js`. That core has two parts:

- the small publish/subscribe emitter `SimpleEvents` with `on`/`addListener`, `once`, `off` and `emit`, together with the `Messenger` singleton that forwards `dispatch` to a store emitter;
- the drag state of `DragPosition` (`setState`/`getState`) and the handlers registered on it: `change` copies a drag-start payload into the state, and `moveMain`/`moveMini` compute the dragged element's position from the pointer.

Listeners are opaque ids. `emit` is a pure function. It returns the emitter afterwards, the trace of listener invocations in order with their argument lists, and the exception thrown, if any. When `emit` throws partway through, the outcome keeps the listeners already run and the registry changes already made. The `once` wrapper is modelled faithfully:

- it calls `off(type)` before running its listener, so the whole entry for that name is removed;
- its private `fired` flag is the membership of its token in the emitter's `fired` set.

The `emit` loop re-reads `_events[type]` on every iteration. So when a `once` wrapper sits above other listeners of the same name, the next iteration reads an entry that is gone and throws a `TypeError` (`EntryVanished`); the earlier listeners never run. This is the source's behaviour and the model keeps it (`EventsLaws.OnceAfterOthersAbortsEmit`).

Drag state fields and payload properties are JavaScript values restricted to `null`, `undefined` or a number. Numbers are integers here. The handlers' `+`/`-` follows JavaScript's conversions: `null` counts as 0 and `undefined` yields `NaN`. The move guard `if (!posX || !posY) return;` is kept as written, so an origin of exactly 0 skips the move like an unset one (`DragLaws.ZeroOriginSkipsMoves`).

Files: `wrappers.dfy` (Option/Result), `events.dfy` and `events_laws.dfy` (the emitter), `once_history.dfy` (histories of emitter calls), `messenger.dfy`, `drag_position.dfy` and `drag_laws.dfy` (drag state and move handlers), `drag_action.dfy` (the action emitter's four methods).

## Model

| member | source | states |
|---|---|---|
| Events.On | js/main.js:20-38 | throws TypeError exactly when the listener is not a function; otherwise creates the entry if absent, appends the listener at the end of that name's list, and leaves every other name's list unchanged |
| Events.Once | js/main.js:40-61 | throws TypeError exactly when the listener is not a function; otherwise appends one wrapper at the end of that name's list, other names unchanged; on a well-formed emitter its token is neither fired nor registered anywhere, so its `fired` flag starts clear |
| Events.Off | js/main.js:63-73 | with an absent or empty-string name the registry becomes empty; otherwise exactly that name's entry is removed and every remaining name keeps its list |
| Events.Walk | js/main.js:82-88 | the dispatch loop runs entries from the highest index down, each with the same arguments; only the last listener run can be a `once` wrapper; it ends without error exactly when no `once` wrapper sits above index 0; a vanished entry raises the error for that name |
| Events.WalkReach | js/main.js:48-55 | the loop visits every entry unless it stops at a `once` wrapper, either one it just ran or one whose flag was already set; once a `once` wrapper lies in the visited range, the name's entry is deleted afterwards |
| Events.WalkAllPlain | js/main.js:84-86 | with only `on` listeners the loop changes nothing and runs exactly the reference reverse-registration order |
| Events.WalkErrorIndex | js/main.js:84-85 | a vanished-entry error names the index the loop was about to read: one below the `once` wrapper that ran last, or one below an already-fired wrapper it skipped |
| Events.WalkFired | js/main.js:45-55 | the loop sets exactly the flags of the `once` wrappers it ran, all taken from the visited list; none runs twice, and one whose flag is set does not run its listener |
| Events.Emit | js/main.js:75-89 | throws for a name with no entry and then changes nothing; otherwise runs listeners last-registered first with the same arguments, fails only through a vanished entry, runs no listener after the first `once` wrapper it runs, stops early only at a `once` wrapper, deletes the entry whenever the list holds a `once` wrapper, leaves other names' lists alone unless the name is `""` (whose `once` wrapper's `off("")` clears the registry), reports as the vanished index the entry just below the wrapper that stopped it, and with only `on` listeners runs every one exactly once in reverse order |
| EventsLaws.EmptyWellFormed | js/main.js:16-18 | a freshly initialised emitter is well formed |
| EventsLaws.OnPreserves | js/main.js:27-33 | `on` keeps entries non-empty and tokens below the next one |
| EventsLaws.OncePreserves | js/main.js:45-58 | `once` keeps the emitter well formed: its wrapper's token is fresh |
| EventsLaws.OffPreserves | js/main.js:63-73 | `off` keeps the emitter well formed |
| EventsLaws.EmitPreserves | js/main.js:75-89 | `emit` keeps the emitter well formed: it only deletes entries and sets flags of registered wrappers |
| EventsLaws.OnThenEmitRunsNewestFirst | js/main.js:31-33 | after `on(name, f)`, the next `emit(name, ...)` runs `f` first, with the emitted arguments |
| EventsLaws.SingleListenerRunsOnce | js/main.js:84-88 | a name with one `on` listener: `emit` runs it exactly once with the arguments and succeeds |
| EventsLaws.EmitAfterOffFails | js/main.js:66-80 | after `off(name)` or `off()`, `emit(name)` throws and changes nothing |
| EventsLaws.OnceRunsThenEntryIsGone | js/main.js:48-55 | a lone `once` listener runs on the first emit, which removes the entry; the second emit of that name throws |
| EventsLaws.OnceAtBottomRunsAll | js/main.js:48-55 | an unfired `once` wrapper registered before only `on` listeners does not cut dispatch short: all run in reverse order, the wrapper last, with no error, and the entry is gone afterwards |
| EventsLaws.OnceAfterOthersAbortsEmit | js/main.js:48-49 | a `once` registered after other listeners of its name runs first, deletes the entry, and the loop then throws; no earlier listener runs |
| EventsLaws.OnceOnEmptyNameClearsAll | js/main.js:49 | a `once` on the empty-string name wipes the whole registry when it fires, because `off("")` clears everything |
| OnceHistory.Step | js/main.js:20-89 | one emitter call sets only the flags of the wrappers it ran, and runs no `once` listener twice or after its flag is set |
| OnceHistory.RunOnceAtMostOnce | js/main.js:45-55 | over any sequence of calls, a `once` registration runs its listener at most once, and never if its flag is already set |
| OnceHistory.OnceListenerRunsAtMostOnce | js/main.js:40-61 | from a fresh emitter, every `once` listener runs at most once in any history of calls |
| OnceHistory.RunPreserves | js/main.js:12-89 | every history of calls keeps the emitter well formed |
| Messenger.Construct | js/main.js:94-101 | the first construction records its store; any later construction returns the recorded instance unchanged |
| Messenger.FirstConstructionWins | js/main.js:91-104 | over any sequence of constructions every result is the first instance, holding the first store |
| Messenger.Dispatch | js/main.js:106-109 | forwards to the store's `emit`: trace, error and the store's new state are exactly those of `emit(type, args[0])` on it, every listener receiving exactly the first payload (`undefined` if none); other emitters untouched; a missing store throws |
| Messenger.DispatchIgnoresExtraArgs | js/main.js:107-108 | extra payload arguments do not change what dispatch does |
| Messenger.DispatchReachesFirstStore | js/main.js:94-108 | a dispatch through a second-constructed messenger acts on the first store as an `emit` of the first payload |
| DragPosition.SetState | js/main.js:149-157 | after `setState(name, v)`, `getState(name)` is `v` and every other name reads as before |
| DragPosition.Change | js/main.js:239-247 | each of the six fields reads as the payload's property (`undefined` when absent); every other state name is untouched |
| DragPosition.MoveMain | js/main.js:248-264 | calls back exactly when `posX` and `posY` are truthy, with `top = eY + posY - dragH` and `left = eX + posX - dragW`; `null` sizes count as 0, `undefined` ones give `NaN` |
| DragPosition.MoveMini | js/main.js:265-281 | calls back exactly when `posX` and `posY` are truthy, with exactly `moveMain`'s position plus `mTop`/`mLeft` under JavaScript's `+` (`null` counts as 0); an `undefined` offset gives `NaN` |
| DragLaws.InitialStateSkipsMoves | js/main.js:137-144 | before any `change` (all fields `null`) neither move handler calls back |
| DragLaws.ZeroOriginSkipsMoves | js/main.js:253-255 | a drag origin of exactly 0 skips both move handlers, as an unset one does |
| DragLaws.MoveMiniShiftsMoveMain | js/main.js:260-280 | `moveMini`'s position is `moveMain`'s shifted by the stored `mTop`/`mLeft` |
| DragLaws.MoveFollowsPointer | js/main.js:260-263 | moving the pointer by (dx, dy) moves the computed position by exactly (dx, dy) |
| DragLaws.ChangeThenMoveMain | js/main.js:239-263 | after a `change` with numeric non-zero origins, `moveMain` places the element at pointer + origin - size |
| DragLaws.MainDragMakesMiniNaN | js/main.js:239-281 | after a `change` without `mTop`/`mLeft`, `moveMini` still calls back, with `NaN` coordinates |
| DragLaws.WorkedExample | js/main.js:260-263 | size 50x50, origin (100, 100) and pointer (200, 200) give top 250 and left 250 |
| DragAction.Perform | js/main.js:118-132 | each action method emits its own name with the message as sole argument: the listeners run are those registered under that name, newest first (all of them when none is a `once` wrapper), and it throws when nobody listens to that name |
| DragAction.EventNamesDistinct | js/main.js:118-132 | the four action methods emit four different names |
| DragAction.StartRunsSubscriberOnce | js/main.js:118-120 | `on('start', f)` then `start(m)` runs `f` exactly once with `m` |

## Left out

- DOM and jQuery wiring is not modelled: element cloning, CSS, pointer and touch event binding, `preventDefault`, and the page's own listener registrations (js/main.js:174-236, js/main.js:286-414). It is presentation code over a library outside the model.
- The `setTimeout` deferrals are not modelled; they are scheduling, not logic.
- The scale factor and the margin/offset transforms built on it are not modelled. They divide and multiply by a floating-point ratio.
- `MinimapPosition` is not modelled: it walks the live DOM `offsetParent` chain.
- `inherits` is not modelled; the emitters are composed, and `DragPosition` state sits beside its emitter.
- The `complete` handler (js/main.js:282-284) only calls the message's callback, so it is not modelled.
- Listener side effects and `this` binding during dispatch are not modelled: listeners are opaque ids. The only registry change during `emit` in the model is the `once` wrapper's own `off(type)`.
- Listeners never throw in the model. In the source, an exception from a listener (js/main.js:85) aborts the rest of the loop and propagates out of `emit`. The only abort the model keeps is the `EntryVanished` read that follows a `once` wrapper.
- Event names are strings. Non-string names are not modelled: the source coerces them to property keys, while `off` tests them for falsiness, so `off(0)` clears everything. Names that collide with `Object.prototype` members (`toString`, `constructor`, ...) are not modelled either; there `_events[type]` is an inherited function, not an entry.
- Coordinates are integers, not IEEE doubles. The only non-finite number is `NaN`: there is no ±Infinity and no -0. Slots hold only `null`, `undefined` or integers, not strings or objects.
- A drag state field holding `NaN` is not modelled. In the source such a `posX`/`posY` is falsy and would also skip the move.
- Messenger.Construct: calling `Messenger` without `new` is not modelled. Once an instance exists, such a plain call returns it like any later construction. Before the first construction it throws in strict mode, because it sets `.store` on `undefined`.
- DragPosition.MoveMain: a move message without a `callback`, which would throw, is not modelled. Nor is a message whose `eX`/`eY` are not numbers; the page always sends numbers.

=== FILE: drag_action.dfy ===
/** `DragAction`: an emitter whose `start`, `stop`, `moveMain` and `moveMini`
    methods each emit the event of the same name with the message as the single
    argument. */
module DragAction {
  import opened Wrappers
  import opened Events

  datatype Action = Start | Stop | MoveMain | MoveMini

  /** The event name each method emits. */
  function EventName(a: Action): string
  {
    match a
    case Start => "start"
    case Stop => "stop"
    case MoveMain => "moveMain"
    case MoveMini => "moveMini"
  }

  /** Calls method `a` with `message`. */
  function Perform(e: Emitter, a: Action, message: Value): (o: Outcome)
    ensures o.error == Some(NoSuchEvent(EventName(a))) <==> EventName(a) !in e.events
    ensures forall k | 0 <= k < |o.trace| :: o.trace[k].args == [message]
    ensures EventName(a) in e.events ==>
              && |o.trace| <= |e.events[EventName(a)]|
              && forall k | 0 <= k < |o.trace| ::
                   o.trace[k] == Invocation(e.events[EventName(a)][|e.events[EventName(a)]| - 1 - k], [message])
    ensures EventName(a) in e.events && (forall j | 0 <= j < |e.events[EventName(a)]| :: e.events[EventName(a)][j].Plain?) ==>
              o.trace == ReverseCalls(e.events[EventName(a)], [message])
    ensures forall n | n in e.events && n != EventName(a) :: n in o.emitter.events && o.emitter.events[n] == e.events[n]
  {
    Emit(e, EventName(a), [message])
  }

  /** The four methods emit four distinct names. */
  lemma EventNamesDistinct(a: Action, b: Action)
    ensures EventName(a) == EventName(b) <==> a == b
  {
  }

  /** A listener subscribed with `on('start', f)` on an action emitter with no
      other start listener is run exactly once, with the very message `start`
      was given. */
  lemma StartRunsSubscriberOnce(e: Emitter, f: ListenerId, message: Value)
    requires "start" !in e.events
    ensures On(e, "start", Function(f)).Ok?
    ensures Perform(On(e, "start", Function(f)).value, Start, message).trace == [Invocation(Plain(f), [message])]
    ensures Perform(On(e, "start", Function(f)).value, Start, message).error == None
  {
  }
}

=== FILE: drag_laws.dfy ===
/** Properties of the drag state and the move handlers: how `change` feeds the
    move computations, how the two move handlers relate, and the guard's
    treatment of unset and zero drag origins. */
module DragLaws {
  import opened Wrappers
  import opened DragPosition

  /** Before any `change`, both move handlers skip their callback. */
  lemma InitialStateSkipsMoves(msg: MoveMessage)
    ensures MoveMain(Initial, msg) == None
    ensures MoveMini(Initial, msg) == None
  {
  }

  /** The guard treats a drag origin of exactly 0 like an unset one: the move is
      skipped even though 0 is a legitimate offset. */
  lemma ZeroOriginSkipsMoves(states: Record, msg: MoveMessage)
    requires GetState(states, "posX") == Num(0) || GetState(states, "posY") == Num(0)
    ensures MoveMain(states, msg) == None
    ensures MoveMini(states, msg) == None
  {
  }

  /** `moveMini` is `moveMain` shifted by the stored highlight offsets. */
  lemma MoveMiniShiftsMoveMain(states: Record, msg: MoveMessage)
    requires DragStarted(states)
    ensures var main := MoveMain(states, msg).value;
            var mini := MoveMini(states, msg).value;
            && mini.top == Plus(main.top, ToNumber(GetState(states, "mTop")))
            && mini.left == Plus(main.left, ToNumber(GetState(states, "mLeft")))
  {
  }

  /** While a drag is in progress, the computed position follows the pointer:
      moving the pointer by (dx, dy) moves the result by exactly (dx, dy), so the
      grabbed point stays under the pointer. */
  lemma MoveFollowsPointer(states: Record, msg: MoveMessage, dx: int, dy: int)
    requires DragStarted(states)
    requires GetState(states, "dragH").Num? && GetState(states, "dragW").Num?
    ensures var p := MoveMain(states, msg).value;
            var q := MoveMain(states, MoveMessage(msg.eX + dx, msg.eY + dy)).value;
            q.top == Finite(p.top.v + dy) && q.left == Finite(p.left.v + dx)
  {
  }

  /** A `change` carrying numeric, non-zero origins starts the drag; the next
      `moveMain` places the element at pointer + origin - size. */
  lemma ChangeThenMoveMain(states: Record, payload: Record, msg: MoveMessage, dragH: int, dragW: int, posY: int, posX: int)
    requires Lookup(payload, "dragH") == Num(dragH) && Lookup(payload, "dragW") == Num(dragW)
    requires Lookup(payload, "posY") == Num(posY) && Lookup(payload, "posX") == Num(posX)
    requires posY != 0 && posX != 0
    ensures MoveMain(Change(states, payload), msg)
         == Some(Position(Finite(msg.eY + posY - dragH), Finite(msg.eX + posX - dragW)))
  {
  }

  /** The main element's drag start sends no `mTop`/`mLeft`; after its `change`
      the `moveMini` handler still fires and computes `NaN` for both coordinates. */
  lemma MainDragMakesMiniNaN(states: Record, payload: Record, msg: MoveMessage)
    requires "mTop" !in payload && "mLeft" !in payload
    requires Truthy(Lookup(payload, "posX")) && Truthy(Lookup(payload, "posY"))
    ensures MoveMini(Change(states, payload), msg) == Some(Position(NaN, NaN))
  {
  }

  /** The worked example: size 50x50, origin (100, 100), pointer (200, 200). */
  lemma WorkedExample()
    ensures MoveMain(Change(Initial, map["dragH" := Num(50), "dragW" := Num(50), "posY" := Num(100), "posX" := Num(100)]),
                     MoveMessage(200, 200))
         == Some(Position(Finite(250), Finite(250)))
  {
  }
}

=== FILE: drag_position.dfy ===
/** `DragPosition`: the drag state record with `setState`/`getState`, and the
    bodies of the `change`, `moveMain` and `moveMini` handlers registered on it.

    State fields and payload properties hold JavaScript values that matter here:
    `null`, `undefined` or a number. Coordinates are modelled as integers; the
    arithmetic the handlers do is JavaScript's `+`/`-` on such values, so `null`
    counts as 0 and `undefined` poisons the result to `NaN`. */
module DragPosition {
  import opened Wrappers

  /** A JavaScript value held in a state field or payload property. */
  datatype Slot = Null | Undefined | Num(n: int)

  /** A plain object: its own properties. A missing property reads as `undefined`. */
  type Record = map<string, Slot>

  /** A JavaScript number produced by the handlers' arithmetic. */
  datatype Number = Finite(v: int) | NaN

  /** The object handed to the move callbacks. */
  datatype Position = Position(top: Number, left: Number)

  /** The payload of a move message; the callback is represented by the handler's
      `Option<Position>` result (`Some(p)`: called once with `p`; `None`: not called). */
  datatype MoveMessage = MoveMessage(eX: int, eY: int)

  /** The six fields a `DragPosition` starts with. */
  predicate IsField(k: string)
  {
    k == "dragH" || k == "dragW" || k == "posY" || k == "posX" || k == "mTop" || k == "mLeft"
  }

  /** `this.states` right after construction: every field `null`. */
  const Initial: Record :=
    map["dragH" := Null, "dragW" := Null, "posY" := Null, "posX" := Null, "mTop" := Null, "mLeft" := Null]

  /** Property read `obj[key]`. */
  function Lookup(obj: Record, key: string): Slot
  {
    if key in obj then obj[key] else Undefined
  }

  /** `getState(name)`. */
  function GetState(states: Record, name: string): Slot
  {
    Lookup(states, name)
  }

  /** `setState(name, value)`: afterwards `getState(name)` is `value` and every
      other name reads as before. */
  function SetState(states: Record, name: string, value: Slot): (r: Record)
    ensures GetState(r, name) == value
    ensures forall k | k != name :: GetState(r, k) == GetState(states, k)
    ensures r.Keys == states.Keys + {name}
  {
    states[name := value]
  }

  /** The `change` handler: copies the six fields from the payload, so a field
      the payload lacks becomes `undefined`. */
  function Change(states: Record, payload: Record): (r: Record)
    ensures forall f | IsField(f) :: GetState(r, f) == Lookup(payload, f)
    ensures forall k | !IsField(k) :: GetState(r, k) == GetState(states, k)
    ensures forall k :: k in r <==> k in states || IsField(k)
  {
    var s1 := SetState(states, "dragH", Lookup(payload, "dragH"));
    var s2 := SetState(s1, "dragW", Lookup(payload, "dragW"));
    var s3 := SetState(s2, "posY", Lookup(payload, "posY"));
    var s4 := SetState(s3, "posX", Lookup(payload, "posX"));
    var s5 := SetState(s4, "mTop", Lookup(payload, "mTop"));
    SetState(s5, "mLeft", Lookup(payload, "mLeft"))
  }

  /** JavaScript's numeric conversion of a slot. */
  function ToNumber(s: Slot): Number
  {
    match s
    case Null => Finite(0)
    case Undefined => NaN
    case Num(n) => Finite(n)
  }

  function Plus(a: Number, b: Number): Number
  {
    if a.Finite? && b.Finite? then Finite(a.v + b.v) else NaN
  }

  function Minus(a: Number, b: Number): Number
  {
    if a.Finite? && b.Finite? then Finite(a.v - b.v) else NaN
  }

  /** JavaScript truthiness of a slot: `null`, `undefined` and `0` are falsy.
      (`NaN` is falsy too, but no slot holds it.) */
  predicate Truthy(s: Slot)
  {
    s.Num? && s.n != 0
  }

  /** The guard `if (!posX || !posY) return;` shared by both move handlers. */
  predicate DragStarted(states: Record)
  {
    Truthy(GetState(states, "posX")) && Truthy(GetState(states, "posY"))
  }

  /** The `moveMain` handler. */
  function MoveMain(states: Record, msg: MoveMessage): (r: Option<Position>)
    ensures r.Some? <==> DragStarted(states)
    ensures r.Some? && GetState(states, "dragH").Num? ==>
              r.value.top == Finite(msg.eY + GetState(states, "posY").n - GetState(states, "dragH").n)
    ensures r.Some? && GetState(states, "dragW").Num? ==>
              r.value.left == Finite(msg.eX + GetState(states, "posX").n - GetState(states, "dragW").n)
    ensures r.Some? && GetState(states, "dragH").Null? ==> r.value.top == Finite(msg.eY + GetState(states, "posY").n)
    ensures r.Some? && GetState(states, "dragW").Null? ==> r.value.left == Finite(msg.eX + GetState(states, "posX").n)
    ensures r.Some? && GetState(states, "dragH").Undefined? ==> r.value.top == NaN
    ensures r.Some? && GetState(states, "dragW").Undefined? ==> r.value.left == NaN
  {
    var posX := GetState(states, "posX");
    var posY := GetState(states, "posY");
    if !Truthy(posX) || !Truthy(posY) then None
    else
      var dragH := GetState(states, "dragH");
      var dragW := GetState(states, "dragW");
      Some(Position(
        Minus(Plus(Finite(msg.eY), ToNumber(posY)), ToNumber(dragH)),
        Minus(Plus(Finite(msg.eX), ToNumber(posX)), ToNumber(dragW))))
  }

  /** The `moveMini` handler. */
  function MoveMini(states: Record, msg: MoveMessage): (r: Option<Position>)
    ensures r.Some? <==> DragStarted(states)
    ensures r.Some? ==> r.value.top == Plus(MoveMain(states, msg).value.top, ToNumber(GetState(states, "mTop")))
    ensures r.Some? ==> r.value.left == Plus(MoveMain(states, msg).value.left, ToNumber(GetState(states, "mLeft")))
    ensures r.Some? && GetState(states, "dragH").Num? && GetState(states, "mTop").Num? ==>
              r.value.top == Finite(msg.eY + GetState(states, "posY").n - GetState(states, "dragH").n
                                    + GetState(states, "mTop").n)
    ensures r.Some? && GetState(states, "dragW").Num? && GetState(states, "mLeft").Num? ==>
              r.value.left == Finite(msg.eX + GetState(states, "posX").n - GetState(states, "dragW").n
                                     + GetState(states, "mLeft").n)
    ensures r.Some? && GetState(states, "mTop").Undefined? ==> r.value.top == NaN
    ensures r.Some? && GetState(states, "mLeft").Undefined? ==> r.value.left == NaN
  {
    var posX := GetState(states, "posX");
    var posY := GetState(states, "posY");
    if !Truthy(posX) || !Truthy(posY) then None
    else
      var dragH := GetState(states, "dragH");
      var dragW := GetState(states, "dragW");
      Some(Position(
        Plus(Minus(Plus(Finite(msg.eY), ToNumber(posY)), ToNumber(dragH)), ToNumber(GetState(states, "mTop"))),
        Plus(Minus(Plus(Finite(msg.eX), ToNumber(posX)), ToNumber(dragW)), ToNumber(GetState(states, "mLeft")))))
  }
}

=== FILE: events.dfy ===
/** The `SimpleEvents` emitter: a registry from event names to ordered lists of
    listeners, with `on`/`addListener`, `once`, `off` and `emit`.

    Listeners are opaque ids. What the registry stores is the wrapper the source
    pushes: a plain wrapper for `on`, or the `once` wrapper `g`, which carries a
    token standing for its own closure (and so for its private `fired` flag).
    Dispatch is modelled as a pure function returning the emitter afterwards, the
    trace of listener invocations, and the error thrown, if any. */
module Events {
  import opened Wrappers

  type ListenerId = nat

  /** Identifies one `once` registration, i.e. one closure `g` and its `fired` flag. */
  type Token = nat

  /** An argument handed to `emit`; payload objects are opaque to the emitter. */
  datatype Value = Undefined | Payload(id: nat)

  /** What a caller passes as `listener`: a function, or anything else. */
  datatype Candidate = Function(id: ListenerId) | NotCallable

  /** A registry entry: the wrapper pushed by `on`, or the wrapper `g` built by `once`. */
  datatype Entry = Plain(listener: ListenerId) | OnceWrapper(token: Token, listener: ListenerId)

  /** `events` is `_events`; `fired` holds the tokens whose `fired` flag is set;
      `nextToken` is the token the next `once` registration receives. */
  datatype Emitter = Emitter(events: map<string, seq<Entry>>, fired: set<Token>, nextToken: Token)

  datatype Error =
    | ListenerNotFunction                    // TypeError('listener must be a function')
    | NoSuchEvent(name: string)              // Error('Event "<name>" don't exists')
    | EntryVanished(name: string, index: nat) // TypeError: reading `_events[type][index]` after the entry was deleted
    | NoStore                                // TypeError: calling `emit` on a store that is not an emitter

  /** One call of a registered listener, with the argument list it received. */
  datatype Invocation = Invocation(entry: Entry, args: seq<Value>)

  /** Everything `emit` leaves behind: the emitter, the listeners it ran (in order),
      and the exception that ended it, if one did. */
  datatype Outcome = Outcome(emitter: Emitter, trace: seq<Invocation>, error: Option<Error>)

  /** A freshly constructed emitter (`SimpleEvents.init`). */
  const Empty := Emitter(map[], {}, 0)

  /** The entries registered under `name`, empty when there is no entry. */
  function Listeners(e: Emitter, name: string): seq<Entry>
  {
    if name in e.events then e.events[name] else []
  }

  /** The once-tokens occurring in a list of entries. */
  function TokensOf(list: seq<Entry>): set<Token>
  {
    set j | 0 <= j < |list| && list[j].OnceWrapper? :: list[j].token
  }

  /** The emitter is well formed: every token it has handed out, fired or still
      registered, is below `nextToken`, so a new `once` gets an unused flag. */
  ghost predicate Valid(e: Emitter)
  {
    && (forall t | t in e.fired :: t < e.nextToken)
    && (forall n | n in e.events :: forall t | t in TokensOf(e.events[n]) :: t < e.nextToken)
  }

  function Append(e: Emitter, name: string, entry: Entry): Emitter
  {
    e.(events := e.events[name := Listeners(e, name) + [entry]])
  }

  /** `addListener(type, listener)`, also reachable as `on`. */
  function On(e: Emitter, name: string, listener: Candidate): (r: Result<Emitter, Error>)
    ensures r.Err? <==> listener.NotCallable?
    ensures r.Err? ==> r.error == ListenerNotFunction
    ensures r.Ok? ==> r.value.events.Keys == e.events.Keys + {name}
    ensures r.Ok? ==> r.value.events[name] == Listeners(e, name) + [Plain(listener.id)]
    ensures r.Ok? ==> forall n | n in e.events && n != name :: r.value.events[n] == e.events[n]
    ensures r.Ok? ==> r.value.fired == e.fired && r.value.nextToken == e.nextToken
  {
    if listener.NotCallable? then Err(ListenerNotFunction)
    else Ok(Append(e, name, Plain(listener.id)))
  }

  /** `once(type, listener)`: registers a fresh wrapper `g` through `on`. */
  function Once(e: Emitter, name: string, listener: Candidate): (r: Result<Emitter, Error>)
    ensures r.Err? <==> listener.NotCallable?
    ensures r.Err? ==> r.error == ListenerNotFunction
    ensures r.Ok? ==> r.value.events.Keys == e.events.Keys + {name}
    ensures r.Ok? ==> r.value.events[name] == Listeners(e, name) + [OnceWrapper(e.nextToken, listener.id)]
    ensures r.Ok? ==> forall n | n in e.events && n != name :: r.value.events[n] == e.events[n]
    ensures r.Ok? ==> r.value.fired == e.fired && r.value.nextToken > e.nextToken
    ensures Valid(e) && r.Ok? ==>
              && e.nextToken !in e.fired
              && forall n | n in e.events :: e.nextToken !in TokensOf(e.events[n])
  {
    if listener.NotCallable? then Err(ListenerNotFunction)
    else
      var g := OnceWrapper(e.nextToken, listener.id);
      Ok(Append(e.(nextToken := e.nextToken + 1), name, g))
  }

  /** The `!type` test of `off`: an absent (undefined) name and the empty string are falsy. */
  predicate IsFalsyName(name: Option<string>)
  {
    name.None? || name.value == ""
  }

  /** `off()` / `off(type)`. */
  function Off(e: Emitter, name: Option<string>): (r: Emitter)
    ensures IsFalsyName(name) ==> r.events == map[]
    ensures !IsFalsyName(name) ==> r.events.Keys == e.events.Keys - {name.value}
    ensures !IsFalsyName(name) ==> forall n | n in r.events :: r.events[n] == e.events[n]
    ensures r.fired == e.fired && r.nextToken == e.nextToken
  {
    if IsFalsyName(name) then e.(events := map[])
    else e.(events := e.events - {name.value})
  }

  /** Reference order of dispatch: the entries from last registered to first,
      each receiving `args`. */
  function ReverseCalls(list: seq<Entry>, args: seq<Value>): seq<Invocation>
  {
    if list == [] then []
    else [Invocation(list[|list| - 1], args)] + ReverseCalls(list[..|list| - 1], args)
  }

  /** Does this invocation run the listener of once registration `t`? */
  predicate RunsOnce(inv: Invocation, t: Token)
  {
    inv.entry.OnceWrapper? && inv.entry.token == t
  }

  /** How many times a trace runs the listener of once registration `t`. */
  function OnceCount(trace: seq<Invocation>, t: Token): nat
  {
    if trace == [] then 0
    else (if RunsOnce(trace[0], t) then 1 else 0) + OnceCount(trace[1..], t)
  }

  /** The once tokens whose listener a trace runs. */
  function FiredTokens(trace: seq<Invocation>): set<Token>
  {
    if trace == [] then {}
    else (if trace[0].entry.OnceWrapper? then {trace[0].entry.token} else {}) + FiredTokens(trace[1..])
  }

  /** The loop of `emit`, with `i` entries of `list` (indices `0..i-1`) still to
      visit, from index `i - 1` down. Each iteration re-reads `_events[name]`; a
      `once` wrapper deletes that entry through `off(name)` before running its
      listener (only if its `fired` flag is clear), so the next iteration finds
      the entry gone and throws. */
  function Walk(e: Emitter, name: string, list: seq<Entry>, i: nat, args: seq<Value>): (o: Outcome)
    requires i <= |list|
    ensures |o.trace| <= i
    ensures forall k | 0 <= k < |o.trace| :: o.trace[k] == Invocation(list[i - 1 - k], args)
    ensures forall k | 0 <= k < |o.trace| - 1 :: o.trace[k].entry.Plain?
    ensures o.error.None? <==> i == 0 || (name in e.events && forall j | 1 <= j < i :: list[j].Plain?)
    ensures o.error.Some? ==> o.error.value.EntryVanished? && o.error.value.name == name
    ensures name !in e.events ==> o.emitter == e && o.trace == []
    ensures o.emitter.events == e.events || o.emitter.events == Off(e, Some(name)).events
    ensures o.emitter.nextToken == e.nextToken
    decreases i
  {
    if i == 0 then Outcome(e, [], None)
    else if name !in e.events then Outcome(e, [], Some(EntryVanished(name, i - 1)))
    else
      var entry := list[i - 1];
      var call := Invocation(entry, args);
      match entry
      case Plain(_) =>
        var rest := Walk(e, name, list, i - 1, args);
        Outcome(rest.emitter, [call] + rest.trace, rest.error)
      case OnceWrapper(t, _) =>
        var cleared := Off(e, Some(name));
        if t in e.fired then
          Walk(cleared, name, list, i - 1, args)
        else
          var rest := Walk(cleared.(fired := cleared.fired + {t}), name, list, i - 1, args);
          Outcome(rest.emitter, [call] + rest.trace, rest.error)
  }

  /** With only plain wrappers to visit, the loop leaves the emitter as it was
      and runs the entries in exactly the reference order. */
  lemma {:induction false} WalkAllPlain(e: Emitter, name: string, list: seq<Entry>, i: nat, args: seq<Value>)
    requires i <= |list|
    requires name in e.events
    requires forall j | 0 <= j < i :: list[j].Plain?
    ensures Walk(e, name, list, i, args).emitter == e
    ensures Walk(e, name, list, i, args).trace == ReverseCalls(list[..i], args)
    decreases i
  {
    if i > 0 {
      WalkAllPlain(e, name, list, i - 1, args);
      assert list[..i][..i - 1] == list[..i - 1];
    }
  }

  /** The `fired` flags after the loop are exactly those set before plus those of
      the once registrations it ran, each of which belongs to the visited list;
      no once registration runs twice, and one already fired does not run. */
  lemma {:induction false} WalkFired(e: Emitter, name: string, list: seq<Entry>, i: nat, args: seq<Value>)
    requires i <= |list|
    ensures Walk(e, name, list, i, args).emitter.fired == e.fired + FiredTokens(Walk(e, name, list, i, args).trace)
    ensures FiredTokens(Walk(e, name, list, i, args).trace) <= TokensOf(list)
    ensures forall t :: OnceCount(Walk(e, name, list, i, args).trace, t) <= (if t in e.fired then 0 else 1)
    decreases i
  {
    var o := Walk(e, name, list, i, args);
    if i == 0 || name !in e.events {
    } else {
      var entry := list[i - 1];
      var call := Invocation(entry, args);
      match entry
      case Plain(_) =>
        WalkFired(e, name, list, i - 1, args);
        var rest := Walk(e, name, list, i - 1, args);
        assert o.trace == [call] + rest.trace;
        assert ([call] + rest.trace)[1..] == rest.trace;
      case OnceWrapper(t, _) =>
        var cleared := Off(e, Some(name));
        if t in e.fired {
          WalkFired(cleared, name, list, i - 1, args);
        } else {
          var marked := cleared.(fired := cleared.fired + {t});
          WalkFired(marked, name, list, i - 1, args);
          var rest := Walk(marked, name, list, i - 1, args);
          assert o.trace == [call] + rest.trace;
          assert ([call] + rest.trace)[1..] == rest.trace;
          assert t in TokensOf(list) by { assert list[i - 1].OnceWrapper?; }
        }
    }
  }

  /** How far the loop gets: it visits every entry unless it stops at a `once`
      wrapper, either one it ran (the last invocation) or one whose flag was
      already set (the next entry); and once any `once` wrapper lies in the
      visited range, the name's entry is deleted afterwards. */
  lemma {:induction false} WalkReach(e: Emitter, name: string, list: seq<Entry>, i: nat, args: seq<Value>)
    requires i <= |list|
    requires name in e.events
    ensures var o := Walk(e, name, list, i, args);
            || |o.trace| == i
            || (list[i - 1 - |o.trace|].OnceWrapper? && list[i - 1 - |o.trace|].token in e.fired)
            || (|o.trace| > 0 && o.trace[|o.trace| - 1].entry.OnceWrapper?)
    ensures (exists j | 0 <= j < i :: list[j].OnceWrapper?) ==>
              Walk(e, name, list, i, args).emitter.events == Off(e, Some(name)).events
    decreases i
  {
    if i > 0 && list[i - 1].Plain? {
      WalkReach(e, name, list, i - 1, args);
      if exists j | 0 <= j < i :: list[j].OnceWrapper? {
        var j :| 0 <= j < i && list[j].OnceWrapper?;
        assert j < i - 1;
      }
    }
  }

  /** The index a vanished-entry error reports is the loop's `i` at the read that
      failed: the entry just below the `once` wrapper that ran last, or just below
      an already-fired wrapper the loop went past without running it. */
  lemma {:induction false} WalkErrorIndex(e: Emitter, name: string, list: seq<Entry>, i: nat, args: seq<Value>)
    requires i <= |list|
    requires name in e.events
    ensures var o := Walk(e, name, list, i, args);
            o.error.Some? ==>
              o.error.value.index == (if |o.trace| > 0 && o.trace[|o.trace| - 1].entry.OnceWrapper?
                                      then i - 1 - |o.trace| else i - 2 - |o.trace|)
    decreases i
  {
    if i > 0 && list[i - 1].Plain? {
      WalkErrorIndex(e, name, list, i - 1, args);
    }
  }

  /** The whole loop over a registered name, seen from the outside: the order of
      the listeners it runs, where it stops, and the error it ends with. */
  lemma WalkWholeOrder(e: Emitter, name: string, args: seq<Value>)
    requires name in e.events
    ensures var n := |e.events[name]|;
            var o := Walk(e, name, e.events[name], n, args);
            && |o.trace| <= n
            && (forall k | 0 <= k < |o.trace| :: o.trace[k] == Invocation(e.events[name][n - 1 - k], args))
            && (o.error.None? <==> forall j | 1 <= j < n :: e.events[name][j].Plain?)
            && (o.error.Some? ==> o.error.value.EntryVanished? && o.error.value.name == name)
            && (o.error.Some? ==>
                  o.error.value.index == (if |o.trace| > 0 && o.trace[|o.trace| - 1].entry.OnceWrapper?
                                          then n - 1 - |o.trace| else n - 2 - |o.trace|))
            && (forall k | 0 <= k < |o.trace| - 1 :: o.trace[k].entry.Plain?)
            && (|| |o.trace| == n
                || (e.events[name][n - 1 - |o.trace|].OnceWrapper? && e.events[name][n - 1 - |o.trace|].token in e.fired)
                || (|o.trace| > 0 && o.trace[|o.trace| - 1].entry.OnceWrapper?))
  {
    var list := e.events[name];
    WalkReach(e, name, list, |list|, args);
    WalkErrorIndex(e, name, list, |list|, args);
  }

  /** The whole loop over a registered name: what it leaves in the registry and
      in the `fired` flags. */
  lemma WalkWholeState(e: Emitter, name: string, args: seq<Value>)
    requires name in e.events
    ensures var n := |e.events[name]|;
            var o := Walk(e, name, e.events[name], n, args);
            && ((exists j | 0 <= j < n :: e.events[name][j].OnceWrapper?) ==>
                  o.emitter.events == Off(e, Some(name)).events)
            && ((forall j | 0 <= j < n :: e.events[name][j].Plain?) ==>
                  o.emitter == e && o.trace == ReverseCalls(e.events[name], args))
            && o.emitter.fired == e.fired + FiredTokens(o.trace)
            && (forall t :: OnceCount(o.trace, t) <= (if t in e.fired then 0 else 1))
  {
    var list := e.events[name];
    assert list[..|list|] == list;
    WalkFired(e, name, list, |list|, args);
    WalkReach(e, name, list, |list|, args);
    if forall j | 0 <= j < |list| :: list[j].Plain? {
      WalkAllPlain(e, name, list, |list|, args);
    }
  }

  /** `emit(type, ...args)`. */
  function Emit(e: Emitter, name: string, args: seq<Value>): (o: Outcome)
    ensures name !in e.events ==> o == Outcome(e, [], Some(NoSuchEvent(name)))
    ensures name in e.events ==>
              && |o.trace| <= |e.events[name]|
              && (forall k | 0 <= k < |o.trace| ::
                    o.trace[k] == Invocation(e.events[name][|e.events[name]| - 1 - k], args))
              && (o.error.None? <==> forall j | 1 <= j < |e.events[name]| :: e.events[name][j].Plain?)
              && (o.error.Some? ==> o.error.value.EntryVanished? && o.error.value.name == name)
    ensures name in e.events && o.error.Some? ==>
              o.error.value.index == (if |o.trace| > 0 && o.trace[|o.trace| - 1].entry.OnceWrapper?
                                      then |e.events[name]| - 1 - |o.trace| else |e.events[name]| - 2 - |o.trace|)
    ensures name in e.events ==> forall k | 0 <= k < |o.trace| - 1 :: o.trace[k].entry.Plain?
    ensures name in e.events ==>
              || |o.trace| == |e.events[name]|
              || (e.events[name][|e.events[name]| - 1 - |o.trace|].OnceWrapper?
                  && e.events[name][|e.events[name]| - 1 - |o.trace|].token in e.fired)
              || (|o.trace| > 0 && o.trace[|o.trace| - 1].entry.OnceWrapper?)
    ensures name in e.events && (exists j | 0 <= j < |e.events[name]| :: e.events[name][j].OnceWrapper?) ==>
              o.emitter.events == Off(e, Some(name)).events
    ensures name in e.events && (forall j | 0 <= j < |e.events[name]| :: e.events[name][j].Plain?) ==>
              o.emitter == e && o.trace == ReverseCalls(e.events[name], args)
    ensures o.emitter.events.Keys <= e.events.Keys
    ensures name != "" ==> forall n | n in e.events && n != name :: n in o.emitter.events && o.emitter.events[n] == e.events[n]
    ensures o.emitter.nextToken == e.nextToken
    ensures o.emitter.fired == e.fired + FiredTokens(o.trace)
    ensures forall t :: OnceCount(o.trace, t) <= (if t in e.fired then 0 else 1)
  {
    if name !in e.events then Outcome(e, [], Some(NoSuchEvent(name)))
    else
      WalkWholeOrder(e, name, args);
      WalkWholeState(e, name, args);
      Walk(e, name, e.events[name], |e.events[name]|, args)
  }
}

=== FILE: events_laws.dfy ===
/** Properties relating the `SimpleEvents` operations to one another: what a
    later `emit` observes after `on`, `once` and `off`, and the well-formedness
    every operation preserves. */
module EventsLaws {
  import opened Wrappers
  import opened Events

  /** Every registered name holds at least one entry (only `on` creates an entry,
      and always with one element), and no handed-out token is reused. */
  ghost predicate WellFormed(e: Emitter)
  {
    && Valid(e)
    && (forall n | n in e.events :: e.events[n] != [])
  }

  lemma EmptyWellFormed()
    ensures WellFormed(Empty)
  {
  }

  lemma {:induction false} TokensOfAppend(list: seq<Entry>, entry: Entry)
    ensures TokensOf(list + [entry]) == TokensOf(list) + (if entry.OnceWrapper? then {entry.token} else {})
  {
    var l := list + [entry];
    forall t | t in TokensOf(l)
      ensures t in TokensOf(list) + (if entry.OnceWrapper? then {entry.token} else {})
    {
      var j :| 0 <= j < |l| && l[j].OnceWrapper? && l[j].token == t;
      if j < |list| {
        assert list[j] == l[j];
      }
    }
    forall t | t in TokensOf(list)
      ensures t in TokensOf(l)
    {
      var j :| 0 <= j < |list| && list[j].OnceWrapper? && list[j].token == t;
      assert l[j] == list[j];
    }
    if entry.OnceWrapper? {
      assert l[|list|] == entry;
    }
  }

  /** `on` preserves well-formedness. */
  lemma OnPreserves(e: Emitter, name: string, listener: Candidate)
    requires WellFormed(e)
    ensures On(e, name, listener).Ok? ==> WellFormed(On(e, name, listener).value)
  {
    if listener.Function? {
      TokensOfAppend(Listeners(e, name), Plain(listener.id));
    }
  }

  /** `once` preserves well-formedness: its token is fresh and then handed out. */
  lemma OncePreserves(e: Emitter, name: string, listener: Candidate)
    requires WellFormed(e)
    ensures Once(e, name, listener).Ok? ==> WellFormed(Once(e, name, listener).value)
  {
    if listener.Function? {
      TokensOfAppend(Listeners(e, name), OnceWrapper(e.nextToken, listener.id));
    }
  }

  /** `off` preserves well-formedness. */
  lemma OffPreserves(e: Emitter, name: Option<string>)
    requires WellFormed(e)
    ensures WellFormed(Off(e, name))
  {
  }

  /** `emit` preserves well-formedness: it only deletes entries and sets the flags
      of tokens it found registered. */
  lemma EmitPreserves(e: Emitter, name: string, args: seq<Value>)
    requires WellFormed(e)
    ensures WellFormed(Emit(e, name, args).emitter)
  {
    var o := Emit(e, name, args);
    if name in e.events {
      WalkFired(e, name, e.events[name], |e.events[name]|, args);
      assert e.events[name][..|e.events[name]|] == e.events[name];
      forall t | t in o.emitter.fired
        ensures t < o.emitter.nextToken
      {
        if t !in e.fired {
          assert t in TokensOf(e.events[name]);
        }
      }
    }
  }

  /** The listener just added with `on` is the first one `emit` runs, with the
      emitted arguments: dispatch is newest first. */
  lemma OnThenEmitRunsNewestFirst(e: Emitter, name: string, l: ListenerId, args: seq<Value>)
    ensures On(e, name, Function(l)).Ok?
    ensures Emit(On(e, name, Function(l)).value, name, args).trace != []
    ensures Emit(On(e, name, Function(l)).value, name, args).trace[0] == Invocation(Plain(l), args)
  {
  }

  /** `emit` of a name with one plain listener runs that listener exactly once
      with the payload, and nothing else. */
  lemma SingleListenerRunsOnce(e: Emitter, name: string, l: ListenerId, args: seq<Value>)
    requires name !in e.events
    ensures On(e, name, Function(l)).Ok?
    ensures Emit(On(e, name, Function(l)).value, name, args)
         == Outcome(On(e, name, Function(l)).value, [Invocation(Plain(l), args)], None)
  {
  }

  /** After `off(name)`, and after `off()`, emitting that name throws. */
  lemma EmitAfterOffFails(e: Emitter, off: Option<string>, name: string, args: seq<Value>)
    requires IsFalsyName(off) || off.value == name
    ensures Emit(Off(e, off), name, args) == Outcome(Off(e, off), [], Some(NoSuchEvent(name)))
  {
  }

  /** A `once` listener on a name with no other listeners runs on the first `emit`
      of that name, which removes the entry; a second `emit` throws. */
  lemma OnceRunsThenEntryIsGone(e: Emitter, name: string, l: ListenerId, a1: seq<Value>, a2: seq<Value>)
    requires WellFormed(e)
    requires name !in e.events
    ensures Once(e, name, Function(l)).Ok?
    ensures var e1 := Once(e, name, Function(l)).value;
            var o1 := Emit(e1, name, a1);
            && o1.trace == [Invocation(OnceWrapper(e.nextToken, l), a1)]
            && o1.error == None
            && name !in o1.emitter.events
            && Emit(o1.emitter, name, a2).error == Some(NoSuchEvent(name))
  {
  }

  /** The sharp edge of `once`: registered after other listeners of the same name,
      its wrapper runs first, deletes the whole entry, and the loop then reads the
      deleted entry and throws, so the earlier listeners never run. */
  lemma OnceAfterOthersAbortsEmit(e: Emitter, name: string, l: ListenerId, args: seq<Value>)
    requires WellFormed(e)
    requires name in e.events
    ensures Once(e, name, Function(l)).Ok?
    ensures var e1 := Once(e, name, Function(l)).value;
            var o := Emit(e1, name, args);
            && o.trace == [Invocation(OnceWrapper(e.nextToken, l), args)]
            && o.error == Some(EntryVanished(name, |e.events[name]| - 1))
            && name !in o.emitter.events
  {
  }

  /** A `once` registered on the empty-string name wipes every entry when it fires,
      because the wrapper's `off("")` is an `off()`. */
  lemma OnceOnEmptyNameClearsAll(e: Emitter, l: ListenerId, args: seq<Value>)
    requires WellFormed(e)
    ensures Once(e, "", Function(l)).Ok?
    ensures Emit(Once(e, "", Function(l)).value, "", args).emitter.events == map[]
  {
  }

  lemma {:induction false} ReverseCallsAt(list: seq<Entry>, args: seq<Value>)
    ensures |ReverseCalls(list, args)| == |list|
    ensures forall k | 0 <= k < |list| :: ReverseCalls(list, args)[k] == Invocation(list[|list| - 1 - k], args)
    decreases |list|
  {
    if list != [] {
      ReverseCallsAt(list[..|list| - 1], args);
    }
  }

  /** A `once` wrapper at the bottom of a name's list (registered first, under
      only `on` listeners) does not cut the dispatch short: every listener runs
      in reverse order, the wrapper last, and the entry is then gone. */
  lemma OnceAtBottomRunsAll(e: Emitter, name: string, args: seq<Value>)
    requires name in e.events && e.events[name] != []
    requires e.events[name][0].OnceWrapper? && e.events[name][0].token !in e.fired
    requires forall j | 1 <= j < |e.events[name]| :: e.events[name][j].Plain?
    ensures Emit(e, name, args).error == None
    ensures Emit(e, name, args).trace == ReverseCalls(e.events[name], args)
    ensures name !in Emit(e, name, args).emitter.events
  {
    var list := e.events[name];
    var o := Emit(e, name, args);
    ReverseCallsAt(list, args);
    assert exists j | 0 <= j < |list| :: list[j].OnceWrapper? by { assert list[0].OnceWrapper?; }
  }
}

=== FILE: messenger.dfy ===
/** `Messenger`: a singleton that forwards `dispatch(type, payload, ...)` to the
    `emit` of the store it was first constructed with.

    The module-private `instance` variable is an explicit `Option<Instance>`
    threaded through construction. Emitters live in a `World` indexed by
    reference, so that the messenger's store and the page's own handle on the
    same emitter see the same state. */
module Messenger {
  import opened Wrappers
  import opened Events

  /** A reference to an emitter object. */
  type StoreId = nat

  /** The emitters on the page, by reference. */
  type World = map<StoreId, Emitter>

  /** A messenger object; `store` is `None` when it was built without one. */
  datatype Instance = Instance(store: Option<StoreId>)

  /** The result of `dispatch`: the world afterwards, the listeners run, and the
      exception thrown, if any. */
  datatype Dispatched = Dispatched(world: World, trace: seq<Invocation>, error: Option<Error>)

  /** `new Messenger(store)`: returns the singleton variable afterwards and the
      object the expression evaluates to. */
  function Construct(current: Option<Instance>, store: Option<StoreId>): (r: (Option<Instance>, Instance))
    ensures r.0 == Some(r.1)
    ensures current.Some? ==> r.0 == current
    ensures current.None? ==> r.1.store == store
  {
    if current.Some? then (current, current.value)
    else var made := Instance(store); (Some(made), made)
  }

  /** Evaluates `new Messenger(stores[0])`, `new Messenger(stores[1])`, ... in turn,
      returning the singleton variable afterwards and the object each produced. */
  function ConstructAll(current: Option<Instance>, stores: seq<Option<StoreId>>): (r: (Option<Instance>, seq<Instance>))
    ensures |r.1| == |stores|
    decreases |stores|
  {
    if stores == [] then (current, [])
    else
      var (next, m) := Construct(current, stores[0]);
      var (last, ms) := ConstructAll(next, stores[1..]);
      (last, [m] + ms)
  }

  /** The first construction wins: every later `new Messenger(...)` yields the
      very first object, whose store is the first store passed. */
  lemma {:induction false} FirstConstructionWins(stores: seq<Option<StoreId>>)
    requires stores != []
    ensures ConstructAll(None, stores).0 == Some(Instance(stores[0]))
    ensures forall k | 0 <= k < |stores| :: ConstructAll(None, stores).1[k] == Instance(stores[0])
  {
    var first := Instance(stores[0]);
    LaterConstructionsReturnInstance(first, stores[1..]);
  }

  lemma {:induction false} LaterConstructionsReturnInstance(m: Instance, stores: seq<Option<StoreId>>)
    ensures ConstructAll(Some(m), stores).0 == Some(m)
    ensures forall k | 0 <= k < |stores| :: ConstructAll(Some(m), stores).1[k] == m
    decreases |stores|
  {
    if stores != [] {
      LaterConstructionsReturnInstance(m, stores[1..]);
    }
  }

  /** `args[0]` of the rest arguments, `undefined` when there are none. */
  function FirstArg(args: seq<Value>): Value
  {
    if args == [] then Undefined else args[0]
  }

  /** `dispatch(type, ...args)`: `this.store.emit(type, args[0])`. */
  function Dispatch(w: World, m: Instance, name: string, args: seq<Value>): (r: Dispatched)
    ensures m.store.None? || m.store.value !in w ==> r == Dispatched(w, [], Some(NoStore))
    ensures m.store.Some? && m.store.value in w ==>
              && r.world.Keys == w.Keys
              && (forall id | id in w && id != m.store.value :: r.world[id] == w[id])
              && (name in w[m.store.value].events <==> r.error != Some(NoSuchEvent(name)))
    ensures m.store.Some? && m.store.value in w ==>
              var o := Emit(w[m.store.value], name, [FirstArg(args)]);
              r.trace == o.trace && r.error == o.error && r.world[m.store.value] == o.emitter
    ensures forall k | 0 <= k < |r.trace| :: r.trace[k].args == [FirstArg(args)]
  {
    if m.store.None? || m.store.value !in w then Dispatched(w, [], Some(NoStore))
    else
      var s := m.store.value;
      var o := Emit(w[s], name, [FirstArg(args)]);
      Dispatched(w[s := o.emitter], o.trace, o.error)
  }

  /** Only the first payload argument is forwarded: extra arguments change nothing. */
  lemma DispatchIgnoresExtraArgs(w: World, m: Instance, name: string, a: Value, rest: seq<Value>)
    ensures Dispatch(w, m, name, [a] + rest) == Dispatch(w, m, name, [a])
  {
  }

  /** A dispatch through any later-constructed messenger acts on the first store:
      it is exactly an `emit` of the first payload on that store. */
  lemma DispatchReachesFirstStore(w: World, s1: StoreId, s2: Option<StoreId>, name: string, args: seq<Value>)
    requires s1 in w
    ensures var (_, m) := Construct(Construct(None, Some(s1)).0, s2);
            var o := Emit(w[s1], name, [FirstArg(args)]);
            Dispatch(w, m, name, args) == Dispatched(w[s1 := o.emitter], o.trace, o.error)
  {
  }
}

=== FILE: once_history.dfy ===
/** Arbitrary sequences of emitter operations, and the guarantee `once` gives
    over all of them: the wrapped listener of one `once` registration runs at
    most once, however often its name is emitted afterwards. */
module OnceHistory {
  import opened Wrappers
  import opened Events
  import opened EventsLaws

  /** One call on the emitter. */
  datatype Op =
    | OnOp(name: string, listener: Candidate)
    | OnceOp(name: string, listener: Candidate)
    | OffOp(off: Option<string>)
    | EmitOp(name: string, args: seq<Value>)

  /** Performs one operation. A thrown error leaves whatever the call had
      already done (for `on`/`once`, nothing) and is otherwise ignored, as a
      caller that catches it would. */
  function Step(e: Emitter, op: Op): (r: (Emitter, seq<Invocation>))
    ensures !op.EmitOp? ==> r.1 == []
    ensures r.0.fired == e.fired + FiredTokens(r.1)
    ensures forall t :: OnceCount(r.1, t) <= (if t in e.fired then 0 else 1)
  {
    match op
    case OnOp(name, l) =>
      var r := On(e, name, l);
      (if r.Ok? then r.value else e, [])
    case OnceOp(name, l) =>
      var r := Once(e, name, l);
      (if r.Ok? then r.value else e, [])
    case OffOp(off) =>
      (Off(e, off), [])
    case EmitOp(name, args) =>
      var o := Emit(e, name, args);
      (o.emitter, o.trace)
  }

  /** Performs the operations in order, collecting every listener invocation. */
  function Run(e: Emitter, ops: seq<Op>): (Emitter, seq<Invocation>)
    decreases |ops|
  {
    if ops == [] then (e, [])
    else
      var (e1, t1) := Step(e, ops[0]);
      var (e2, t2) := Run(e1, ops[1..]);
      (e2, t1 + t2)
  }

  lemma {:induction false} OnceCountAppend(a: seq<Invocation>, b: seq<Invocation>, t: Token)
    ensures OnceCount(a + b, t) == OnceCount(a, t) + OnceCount(b, t)
    decreases |a|
  {
    if a == [] {
      assert a + b == b;
    } else {
      assert (a + b)[0] == a[0];
      assert (a + b)[1..] == a[1..] + b;
      OnceCountAppend(a[1..], b, t);
    }
  }

  lemma {:induction false} FiredTokensCount(trace: seq<Invocation>, t: Token)
    ensures OnceCount(trace, t) > 0 ==> t in FiredTokens(trace)
    decreases |trace|
  {
    if trace != [] {
      FiredTokensCount(trace[1..], t);
    }
  }

  /** Over any run, a once registration whose flag is already set never runs its
      listener, and any other runs it at most once. */
  lemma {:induction false} RunOnceAtMostOnce(e: Emitter, ops: seq<Op>, t: Token)
    ensures OnceCount(Run(e, ops).1, t) <= (if t in e.fired then 0 else 1)
    decreases |ops|
  {
    if ops != [] {
      var (e1, t1) := Step(e, ops[0]);
      var (e2, t2) := Run(e1, ops[1..]);
      RunOnceAtMostOnce(e1, ops[1..], t);
      OnceCountAppend(t1, t2, t);
      FiredTokensCount(t1, t);
    }
  }

  /** From a fresh emitter, every `once` listener runs at most once in any history. */
  lemma OnceListenerRunsAtMostOnce(ops: seq<Op>, t: Token)
    ensures OnceCount(Run(Empty, ops).1, t) <= 1
  {
    RunOnceAtMostOnce(Empty, ops, t);
  }

  /** Every history from a fresh emitter keeps the emitter well formed. */
  lemma {:induction false} RunPreserves(e: Emitter, ops: seq<Op>)
    requires WellFormed(e)
    ensures WellFormed(Run(e, ops).0)
    decreases |ops|
  {
    if ops != [] {
      match ops[0] {
        case OnOp(name, l) => OnPreserves(e, name, l);
        case OnceOp(name, l) => OncePreserves(e, name, l);
        case OffOp(off) => OffPreserves(e, off);
        case EmitOp(name, args) => EmitPreserves(e, name, args);
      }
      RunPreserves(Step(e, ops[0]).0, ops[1..]);
    }
  }
}

=== FILE: wrappers.dfy ===
/** Failure-carrying datatypes shared by the model: `Option` for JavaScript's
    "maybe absent" and `Result` for an operation that either returns or throws. */
module Wrappers {

  datatype Option<+T> = None | Some(value: T)

  /** `Ok` is a normal return; `Err` is a thrown exception carrying its error. */
  datatype Result<+T, +E> = Ok(value: T) | Err(error: E)
}
